=== FILE: README.md ===
# Slideshow request builder — a Dafny model

This project models the part of the slideshow page that decides what the video encoder is
asked to do. When "create video" is pressed (`script.js`, the `create-video-btn` click
handler), the page:

- refuses to build when no image is selected;
- stages `image{i}.png` for every image, then `bgm.mp3` when music was chosen, the caption
  font, and `template1.png` when the `polaroid` template is checked;
- assembles the encoder's argument list. The list holds the `-i` inputs, then a
  `-filter_complex` graph, then the `-map` options, the audio options when there is music,
  and the video codec, the length and the output name.

The graph has four parts:

1. one scale/pad stage per image into a 1080×1920 frame;
2. a chain of 0.5 s cross-fades, each starting half a second before an image's 3 s interval
   ends;
3. one `drawtext` stage per non-blank caption box whose image exists, enabled over that
   image's interval;
4. a final `overlay` stage (frame on top) or `null` stage, labelled `final_v`.

The project also models the progress callback. It clamps `ratio * 100` into [0, 100] and
hides the progress area once the ratio reaches 1.

The modules follow the program's structure:

- `Slideshow` (`slideshow.dfy`) holds the request, the timeline constants, file names,
  stream labels, graph stages and argument tokens. Tokens and stages are typed; nothing is
  rendered to text.
- `Text` (`text.dfy`) holds JavaScript `trim` and the quote doubling of captions.
- `Progress` (`progress.dfy`) holds the progress callback.
- `Graph` (`graph.dfy`) holds the filter graph as a sequence of stages.
- `Command` (`command.dfy`) has two parts:
  - `Build` is the declarative outcome of a button press.
  - `BuildCommand` follows the handler's loops step by step and is proved equal to `Build`.
- `Properties` (`properties.dfy`) holds the properties of a build, proved over the
  declarative model.
- `Sequences` (`sequences.dfy`) holds one shared fact about sequence concatenation.

The encoder's reading of the argument list is modelled by `Command.InputsOf`: the file
after each `-i`, in order. Graph input `k` (`[k:v]`, `[k]`, `k:a?`) names element `k` of
that list, so input-order properties are stated through it.

Three details of the code decide the model's shape:

- A caption is kept only when its trimmed text is non-empty (script.js:112).
- A caption's window `between(t, 3k, 3k+3)` (script.js:114-116) is closed at both ends, so
  the model records start 3k and end 3k+3.
- With music and the frame both chosen, the overlay does not draw the frame (see
  Findings).

## Model

| member | source | states |
|---|---|---|
| `Progress.Clamp` | script.js:18-20 | The bar value always lies in [0, 100]. It equals `ratio * 100` when 0 ≤ ratio ≤ 1, is 0 for a negative ratio, and is 100 for a ratio above 1. |
| `Progress.OnProgress` | script.js:16-28 | The bar shows the clamped percentage of the ratio, within [0, 100]. The hiding is scheduled exactly when the bar is full, that is for every ratio of at least 1. |
| `Progress.ClampMonotone` | script.js:18-20 | A larger ratio never moves the bar backwards. |
| `Text.TrimStartSpec` | script.js:112 | Dropping the leading whitespace leaves a suffix of the input. Everything dropped is whitespace, and the suffix starts with a non-whitespace character or is empty. |
| `Text.TrimEndSpec` | script.js:112 | Dropping the trailing whitespace leaves a prefix. Everything dropped is whitespace, and the prefix ends with a non-whitespace character or is empty. |
| `Text.TrimTight` | script.js:112 | The trimmed text neither starts nor ends with whitespace, and is no longer than the input. |
| `Text.TrimOfPadded` | script.js:112 | Whitespace, then text with no whitespace at either end, then whitespace, trims to exactly that middle text. |
| `Text.TrimDecomposes` | script.js:112 | Every input is whitespace, then its trimmed text, then whitespace. |
| `Text.TrimIdempotent` | script.js:112 | Trimming twice is trimming once. |
| `Text.TrimEmptyIff` | script.js:112 | A caption box trims to the empty string exactly when it holds only whitespace. |
| `Text.Escape` | script.js:113 | The escaped text is longer than its input by exactly the number of single quotes in the input. |
| `Text.EscapeWellEscaped` | script.js:113 | Every quote in escaped text belongs to a doubled pair, so no lone quote can close the `text='…'` value. |
| `Text.UnescapeEscape` | script.js:113 | Collapsing each doubled quote of the escaped text gives back the original text. |
| `Text.EscapeUnescape` | script.js:113 | Conversely, text in which every quote is doubled is the escape of its collapsed form. Quote doubling is therefore a bijection onto well-escaped text. |
| `Graph.CaptionIndicesSpec` | script.js:111-112 | Box `k` yields a text stage exactly when its trimmed text is non-empty and `k < imageCount`. The kept boxes are listed once each, in increasing order. |
| `Graph.CaptionStagesIndexed` | script.js:110-118 | The text stages are, in order, the stages of the kept boxes: stage `j` draws box `idx[j]`. |
| `Command.Build` | script.js:44-47 | A build is rejected (nothing staged, no encoder run) exactly when no image is selected. |
| `Command.StageFiles` | script.js:62-77 | The staging loop names the images `image0.png` … `image{n-1}.png` in selection order. It then stages the music when chosen, the font always, and the frame when `polaroid` is checked. |
| `Command.PushInputs` | script.js:87-89 | The input options are one `-i image{i}.png` per image in order, then `-i bgm.mp3` with music, then `-i template1.png` with `polaroid`. |
| `Command.ScaleAndFade` | script.js:92-107 | The scale loop and the fade loop produce the `n` scale stages followed by the `n-1` fades. They leave `lastStream` at the end of the chain. |
| `Command.DrawCaptions` | script.js:110-118 | The loop over the caption boxes appends exactly the text stages of the kept boxes, in box order. |
| `Command.BuildFilterGraph` | script.js:92-125 | The four steps of the handler produce the graph described by `Graph.FilterGraph`. |
| `Command.PushOptions` | script.js:127-133 | The pushes keep the input options as they are and add no `-i`. They add `-filter_complex`, the graph and `-map [final_v]` first. Next comes `-map {imageCount}:a? -c:a aac -shortest` with music, and the audio map only then. The list ends with `-c:v libx264 -pix_fmt yuv420p -t {imageCount*3} output.mp4`. |
| `Command.TailShape` | script.js:127-133 | After the inputs come the graph and its mapping, then with music the five audio tokens, and the output options last; no `-i` among them. |
| `Command.TailAudio` | script.js:129-131 | After the inputs, the audio map, `-c:a`, `aac` and `-shortest` appear exactly when music was chosen. |
| `Command.BuildCommand` | script.js:42-133 | The step-by-step handler has the same outcome as the declarative `Build` for every request. |
| `Properties.ImageInputTokensShape` | script.js:87 | The image input options are `n` pairs: token `2j` is `-i` and token `2j+1` is `image{j}.png`. |
| `Properties.ImageInputsRead` | script.js:87 | The encoder reads the image options as `image0.png` … `image{n-1}.png` in order. |
| `Properties.OptionalInputs` | script.js:88-89 | The optional options add `bgm.mp3` exactly when music was chosen, then `template1.png` exactly when `polaroid` is checked. |
| `Properties.InputOrderWith` | script.js:87-89 | Whatever the graph, the encoder's inputs are exactly these, in order: the images by index, then `bgm.mp3` iff music was chosen, then `template1.png` iff `polaroid` is checked. |
| `Properties.InputOrder` | script.js:63-89 | A build's inputs are its staged files other than the font, in staging order. |
| `Properties.InputsAreStaged` | script.js:44-89 | A rejected build has no images. Every file the encoder reads as an input (each file after `-i`) in an accepted build was staged, for a request read once (see Left out on the music picker). |
| `Properties.Layout` | script.js:92-125 | The graph is laid out as `n` scale stages, then `n-1` fades, then the text stages, then the final stage, at the stated positions. |
| `Properties.AssembleCounts` | script.js:95-125 | Given text stages that are all `drawtext`, the graph has `n` scale stages, `n-1` fades and one stage per text. It has one overlay when `polaroid` is checked, else one `null`. |
| `Properties.AssembleFinal` | script.js:121-125 | The last stage is the only one writing `final_v`. It reads the end of the chain, and it is an overlay of the given input exactly when `polaroid` is checked. |
| `Properties.LayoutWellLinked` | script.js:95-118 | Scale stages, then the fade chain, then stages reading the chain's end: every label read was written by an earlier stage. |
| `Properties.AssembleWellLinked` | script.js:95-125 | A graph whose text stages read the end of the chain never reads a label before it is written. |
| `Properties.FadeChain` | script.js:100-107 | There are `n-1` fades, and fade `i` joins `v0` (for `i = 0`) or `vt{i-1}` with `v{i+1}` into `vt{i}`. Each lasts 0.5 s and ends where image `i`'s interval ends. The offsets strictly increase and lie inside the video. The chain ends at `v0` for one image and at `vt{n-2}` otherwise. |
| `Properties.FadeInsideVideo` | script.js:104 | Every fade offset is positive and below the total duration. |
| `Properties.FadeOffsetsIncrease` | script.js:104 | A later fade starts strictly later. |
| `Properties.WindowInsideVideo` | script.js:114-115 | The window of a caption whose image exists lies inside the video. |
| `Properties.WindowsInOrder` | script.js:114-115 | The window of an earlier box ends no later than that of a later box begins. |
| `Properties.CaptionOverlays` | script.js:110-118 | Box `k` yields a stage iff its trimmed text is non-empty and `k < n`. Each stage reads and writes the chain's end and draws the trimmed, quote-doubled text. Each is enabled over [3k, 3k+3] inside the video. The stages keep box order, and each window ends no later than the next begins; adjacent windows meet at 3k+3, where both captions are enabled. |
| `Properties.CaptionStagesAt` | script.js:110-118 | There are as many text stages as kept boxes, and stage `j` is box `idx[j]`'s stage. |
| `Properties.CaptionStagesReadChain` | script.js:116 | Every caption stage is `drawtext` on the end of the chain and writes it back, so none writes `final_v`. |
| `Properties.StageCounts` | script.js:92-125 | A build's graph has `n` scale stages, `n-1` fades and one text stage per kept box. It has one overlay when `polaroid` is checked and one `null` otherwise. |
| `Properties.ScaleStagesReadImages` | script.js:87-97 | Scale stage `i` reads input `i`, which is `image{i}.png`, and writes `v{i}` in the 1080×1920 frame. |
| `Properties.FinalStageSpec` | script.js:121-125 | A build's last stage is the only one labelled `final_v`. It reads the chain's end and is an overlay against input `imageCount` exactly when `polaroid` is checked, a `null` otherwise. |
| `Properties.GraphWellLinked` | script.js:92-125 | In a build's graph every label is written before it is read. |
| `Properties.InputTokensShape` | script.js:87-89 | The input options are `-i` flags and file names only. |
| `Properties.AfterInputs` | script.js:87-133 | Helper: carries facts about the options after the inputs over to the whole argument list. A token that is neither `-i` nor a file is in the list exactly when it is after the inputs, and runs after the inputs keep their positions. |
| `Properties.AudioOnlyWithMusic` | script.js:129-131 | `-map {imageCount}:a?`, `-c:a`, `aac` and `-shortest` appear in the list iff music was chosen. With music they form one run right after `-map [final_v]`. |
| `Properties.AudioMapNamesMusic` | script.js:88-130 | With music, the audio map's input `imageCount` is `bgm.mp3`. |
| `Properties.ArgsEnd` | script.js:127-133 | The list always carries the graph and `-map [final_v]`. It ends with `-c:v libx264 -pix_fmt yuv420p -t {imageCount*3} output.mp4`. |
| `Properties.OverlayNamesMusicWhenBoth` | script.js:88-122 | As written, with music and `polaroid` the overlay names input `imageCount`, which is `bgm.mp3`. The frame is input `imageCount+1`. |
| `Properties.OverlayNamesTemplateWithoutMusic` | script.js:89-122 | Without music, the overlay's input `imageCount` is `template1.png`. |
| `Properties.CorrectedOverlayNamesTemplate` | script.js:88-122 | With the overlay pointed at the template's actual position, it draws `template1.png` whether or not there is music, and the graph stays well linked. |
| `Properties.CaptionTextRoundTrip` | script.js:112-113 | A caption's drawn text collapses back to its trimmed text and holds no lone quote. Its length is the trimmed length plus the number of quotes. |
| `Properties.ExampleCaption` | script.js:112-113 | The caption `Hi` trims and escapes to itself. |
| `Properties.ExampleStages` | script.js:110-118 | `Hi` in the first of three boxes is kept and drawn over [0, 3] on the chain's end. |
| `Properties.ThreeImagesOneCaption` | script.js:92-125 | Three images, one caption `Hi`, no music, no frame give 7 stages: 3 scale, 2 fades, one `drawtext` on `vt1` over [0, 3], and `null` into `final_v`. |
| `Properties.ThreeImagesNoAudio` | script.js:127-133 | The same build is cut to 9 seconds and carries no audio options: no audio map, `-c:a`, `aac` or `-shortest`. |

## Left out

- The page itself is not modelled: element lookups, adding caption boxes, the alert, button
  enabling and the progress text (script.js:2-9, 32-38, 45, 50-53, 136, 140). They are UI
  state. The request records what the page would read from them: the image count, the
  caption boxes' values, whether music was chosen, and the template value.
- Loading the encoder, writing files into its staging area, `fetchFile`, running it, and
  reading its output (script.js:12-15, 55-58, 66-76, 137, 141) are foreign calls and I/O.
  Staging is modelled as the list of file names written, and the run as the argument list
  passed.
- Downloading the result through a Blob URL, and the 500 ms timer that hides the progress
  area (script.js:24-26, 142-152), are browser side effects.
- Progress.OnProgress: `hideArea` says that the delayed hide is scheduled, not that the
  area is hidden. The timer is not modelled.
- The template radio button is assumed to be checked. With none checked, the lookup at
  script.js:74 throws after the images, the music and the font are staged (lines 63-72),
  and no command is built. The request always carries a template value, so that error
  path is not modelled.
- Command.Build: the handler reads the image picker at script.js:44 and again in the
  staging loop at lines 63-64, after the awaited engine load (line 57) and each awaited
  file fetch (line 66). A selection emptied during the engine load passes the check at line
  44 and still yields `imageCount` 0 at line 80. The encoder then runs with no image input
  and `-t 0`. The graph is `[v0]null[final_v]`, or `[v0][0]overlay[final_v]` with `polaroid`
  checked (lines 121-122), where input 0 is `bgm.mp3` or `template1.png`. The model reads the selection once, so `Build`'s
  rejection rule and `Properties.GraphWellLinked` hold for a selection that does not change
  during the build.
- Properties.InputsAreStaged: the handler reads the music picker three times (script.js:69,
  88, 129), across the awaited font and frame fetches (lines 72, 76). A music file picked
  during those awaits would give `-i bgm.mp3` with nothing staged under that name. The
  model reads one snapshot of the request, so the property holds only for a picker that
  does not change during the build.
- Progress.Clamp: ratios are reals, so a NaN ratio, which JavaScript would pass through
  both comparisons unchanged, is not modelled.
- Numbers and file names are not rendered to text. `String(totalDuration)`, the offsets in
  the `xfade` options, and the `image{i}.png` names are kept as typed values, because
  JavaScript's number-to-string conversion is not part of this model.
- The encoder's own semantics are not modelled: how it parses the filter graph and what
  the filters do. In particular, whether the encoder reads a doubled quote back as one
  quote is outside the model. `Text.Unescape` is the model's reading of the escaped text.
- The fixed `drawtext` styling (font file, size 70, white text, half-opaque box, centred
  near the bottom), the scale/pad options other than the frame size, and the cross-fade's
  transition kind `fade` (script.js:105) are constants of the stage's rendering. They are
  not fields of the `DrawText`, `ScalePad` and `XFade` stages.
- JavaScript strings are UTF-16 code-unit sequences. Dafny `char` is a Unicode scalar
  value, so a lone surrogate in a caption is not representable.

## Findings

| source | as written | input that shows it | evidently intended | confidence | as-written member | corrected member |
|---|---|---|---|---|---|---|
| script.js:88-122 | The overlay stage always names input `imageCount` (`[${imageCount}]`). Yet `bgm.mp3` is pushed as input `imageCount` whenever music is chosen, which moves `template1.png` to input `imageCount+1`. | One image, music chosen, `polaroid` checked. The inputs are `image0.png`, `bgm.mp3`, `template1.png`, and the overlay reads input 1, which is `bgm.mp3`. | The overlay reads `template1.png`, at input `imageCount + (music ? 1 : 0)`. | high; not executed | `Properties.OverlayNamesMusicWhenBoth` | `Properties.CorrectedOverlayNamesTemplate` |

`Command.Build` and `Graph.FilterGraph` keep the reference as written, matching the
handler. `Graph.CorrectedFilterGraph` differs only in that it names
`Graph.TemplateInputIndex`. `Properties.CorrectedOverlayNamesTemplate` proves that this
corrected graph overlays the template for every request with the frame checked.

=== FILE: command.dfy ===
/**
 The handler of the "create video" button (script.js:42-133) with the page and the
 encoder taken away: from a request it decides whether to build at all, which files are
 staged for the encoder, and the argument list the encoder is run with.

 `Build` states the result declaratively; `BuildCommand` follows the handler step by step
 (its loops over the images, the fades and the caption boxes) and is proved to agree.
 */
module Command {
  import opened Slideshow
  import Text
  import Graph

  /** `image0.png` … `image{n-1}.png`, in selection order. */
  function ImageFiles(n: nat): seq<FileName> {
    seq(n, i requires 0 <= i => Image(i))
  }

  /** The files written to the staging area before the run (script.js:63-77): the images,
      the music when chosen, the caption font always, the frame when `polaroid` is checked. */
  function StagedFiles(req: Request): seq<FileName> {
    ImageFiles(req.imageCount)
      + (if req.hasBgm then [Bgm] else [])
      + [Font]
      + (if req.Polaroid() then [TemplateImage] else [])
  }

  /** `-i image{i}.png` for every image (script.js:87). */
  function ImageInputTokens(n: nat): seq<Token> {
    if n == 0 then [] else ImageInputTokens(n - 1) + [Flag("-i"), File(Image(n - 1))]
  }

  /** `-i bgm.mp3` and `-i template1.png`, each only when chosen (script.js:88-89). */
  function OptionalInputTokens(req: Request): seq<Token> {
    (if req.hasBgm then [Flag("-i"), File(Bgm)] else [])
      + (if req.Polaroid() then [Flag("-i"), File(TemplateImage)] else [])
  }

  /** All input options (script.js:87-89). */
  function InputTokens(req: Request): seq<Token> {
    ImageInputTokens(req.imageCount) + OptionalInputTokens(req)
  }

  /** The filter graph and the mapping of its output (script.js:127-128). */
  function GraphTokens(graph: seq<Stage>): seq<Token> {
    [Flag("-filter_complex"), Filters(graph), Flag("-map"), MapLabel(FinalV)]
  }

  /** Audio options, present only with background music (script.js:129-131). */
  function AudioTokens(req: Request): seq<Token> {
    if req.hasBgm
    then [Flag("-map"), MapAudio(req.imageCount), Flag("-c:a"), Word("aac"), Flag("-shortest")]
    else []
  }

  /** Video codec, pixel format, length and output name (script.js:133). */
  function OutputTokens(n: nat): seq<Token> {
    [Flag("-c:v"), Word("libx264"), Flag("-pix_fmt"), Word("yuv420p"),
     Flag("-t"), Seconds(TotalDuration(n)), File(Output)]
  }

  /** Everything after the input options. */
  function TailTokens(req: Request, graph: seq<Stage>): seq<Token> {
    GraphTokens(graph) + AudioTokens(req) + OutputTokens(req.imageCount)
  }

  /** The argument list around a given filter graph. */
  function ArgsWith(req: Request, graph: seq<Stage>): seq<Token> {
    InputTokens(req) + TailTokens(req, graph)
  }

  function Args(req: Request): seq<Token> {
    ArgsWith(req, Graph.FilterGraph(req))
  }

  /** The encoder's reading of the argument list: the file named by each `-i` option,
      in order. Input `k` of the filter graph (`[k:v]`, `[k]`, `k:a?`) is element `k`. */
  function InputsOf(tokens: seq<Token>): seq<FileName> {
    if tokens == [] then []
    else if tokens[0] == Flag("-i") && |tokens| >= 2 && tokens[1].File?
    then [tokens[1].file] + InputsOf(tokens[2..])
    else InputsOf(tokens[1..])
  }

  /** Pressing the button (script.js:44-47): with no image selected nothing is staged and
      the encoder is not run. */
  function Build(req: Request): (o: Outcome)
    ensures o.NoImages? <==> req.imageCount == 0
  {
    if req.imageCount == 0 then NoImages
    else Job(StagedFiles(req), Args(req))
  }

  // ---- the handler, step by step ----

  /** The staging loop and the writes after it (script.js:62-77). */
  method StageFiles(req: Request) returns (imageFiles: seq<FileName>, staged: seq<FileName>)
    ensures imageFiles == ImageFiles(req.imageCount)
    ensures staged == StagedFiles(req)
  {
    imageFiles := [];
    var i := 0;
    while i < req.imageCount
      invariant 0 <= i <= req.imageCount
      invariant imageFiles == ImageFiles(i)
    {
      imageFiles := imageFiles + [Image(i)];
      i := i + 1;
    }
    staged := imageFiles;
    if req.hasBgm {
      staged := staged + [Bgm];
    }
    staged := staged + [Font];
    if req.template == PolaroidTemplate {
      staged := staged + [TemplateImage];
    }
  }

  /** One `-i` option per staged image in order, then the two optional inputs
      (script.js:87-89). */
  method PushInputs(req: Request, imageFiles: seq<FileName>) returns (command: seq<Token>)
    requires imageFiles == ImageFiles(req.imageCount)
    ensures command == InputTokens(req)
  {
    command := [];
    var i := 0;
    while i < |imageFiles|
      invariant 0 <= i <= |imageFiles|
      invariant command == ImageInputTokens(i)
    {
      command := command + [Flag("-i"), File(imageFiles[i])];
      i := i + 1;
    }
    if req.hasBgm {
      command := command + [Flag("-i"), File(Bgm)];
    }
    if req.template == PolaroidTemplate {
      command := command + [Flag("-i"), File(TemplateImage)];
    }
  }

  /** Steps 1 and 2 of the graph: the scale loop, then the fade loop threading `lastStream`. */
  method ScaleAndFade(imageCount: nat) returns (filter: seq<Stage>, lastStream: Label)
    requires imageCount >= 1
    ensures filter == Graph.ScaleStages(imageCount) + Graph.FadeStages(imageCount)
    ensures lastStream == Graph.LastStream(imageCount)
  {
    filter := [];
    var i := 0;
    while i < imageCount
      invariant 0 <= i <= imageCount
      invariant filter == Graph.ScaleStages(i)
    {
      assert Graph.ScaleStages(i + 1) == Graph.ScaleStages(i) + [Graph.ScaleStage(i)];
      filter := filter + [ScalePad(i, FrameWidth, FrameHeight, V(i))];
      i := i + 1;
    }
    lastStream := V(0);
    i := 0;
    while i < imageCount - 1
      invariant 0 <= i <= imageCount - 1
      invariant filter == Graph.ScaleStages(imageCount) + Graph.FadeStages(i + 1)
      invariant lastStream == Graph.ChainLabel(i)
    {
      var nextStream := V(i + 1);
      var outputStream := VT(i);
      var offset := (i + 1) as real * ImageDuration - FadeDuration;
      assert Graph.FadeStages(i + 2) == Graph.FadeStages(i + 1) + [Graph.FadeStage(i)];
      filter := filter + [XFade(lastStream, nextStream, FadeDuration, offset, outputStream)];
      lastStream := outputStream;
      i := i + 1;
    }
  }

  /** Step 3 (script.js:110-118): one pass over the caption boxes in document order. */
  method DrawCaptions(captions: seq<string>, imageCount: nat, lastStream: Label) returns (added: seq<Stage>)
    ensures added == Graph.CaptionStages(captions, imageCount, lastStream)
  {
    added := [];
    var index := 0;
    while index < |captions|
      invariant 0 <= index <= |captions|
      invariant added == Graph.CaptionStages(captions[..index], imageCount, lastStream)
    {
      assert captions[..index + 1][..index] == captions[..index];
      if Graph.KeepCaption(captions[index], index, imageCount) {
        var text := Text.CaptionText(captions[index]);
        var startTime := index as real * ImageDuration;
        var endTime := startTime + ImageDuration;
        added := added + [DrawText(lastStream, text, startTime, endTime, lastStream)];
      }
      index := index + 1;
    }
    assert captions[..|captions|] == captions;
  }

  /** Steps 1 to 4 of the graph for a non-empty selection (script.js:92-125). */
  method BuildFilterGraph(req: Request, imageCount: nat) returns (filter: seq<Stage>)
    requires imageCount == req.imageCount >= 1
    ensures filter == Graph.FilterGraph(req)
  {
    var lastStream;
    filter, lastStream := ScaleAndFade(imageCount);
    var captionStages := DrawCaptions(req.captions, imageCount, lastStream);
    filter := filter + captionStages;
    if req.template == PolaroidTemplate {
      filter := filter + [Overlay(lastStream, imageCount, FinalV)];
    } else {
      filter := filter + [PassThrough(lastStream, FinalV)];
    }
  }

  /** The options pushed after the inputs (script.js:127-133). */
  method PushOptions(req: Request, filter: seq<Stage>, before: seq<Token>) returns (command: seq<Token>)
    ensures command == before + TailTokens(req, filter)
    ensures |command| >= |before| && command[..|before|] == before
    ensures var tail := command[|before|..];
      && |tail| >= 11
      && tail[..4] == [Flag("-filter_complex"), Filters(filter), Flag("-map"), MapLabel(FinalV)]
      && Flag("-i") !in tail
      && (MapAudio(req.imageCount) in tail <==> req.hasBgm)
      && (req.hasBgm ==> tail[4..9] == [Flag("-map"), MapAudio(req.imageCount), Flag("-c:a"), Word("aac"), Flag("-shortest")])
      && tail[|tail| - 7..] == [Flag("-c:v"), Word("libx264"), Flag("-pix_fmt"), Word("yuv420p"),
                                Flag("-t"), Seconds(req.imageCount as real * 3.0), File(Output)]
  {
    var imageCount := req.imageCount;
    command := before + [Flag("-filter_complex"), Filters(filter)];
    command := command + [Flag("-map"), MapLabel(FinalV)];
    assert command == before + GraphTokens(filter);
    if req.hasBgm {
      command := command + [Flag("-map"), MapAudio(imageCount), Flag("-c:a"), Word("aac"), Flag("-shortest")];
    }
    assert command == before + (GraphTokens(filter) + AudioTokens(req));
    var totalDuration := imageCount as real * ImageDuration;
    command := command + [Flag("-c:v"), Word("libx264"), Flag("-pix_fmt"), Word("yuv420p"),
                          Flag("-t"), Seconds(totalDuration), File(Output)];
    assert command == before + TailTokens(req, filter);
    assert command[..|before|] == before && command[|before|..] == TailTokens(req, filter);
    TailShape(req, filter);
    TailAudio(req, filter);
  }

  /** What follows the inputs: the graph and its mapping, then with music the audio
      options, and the output options last; no further input. */
  lemma TailShape(req: Request, graph: seq<Stage>)
    ensures var tail := TailTokens(req, graph);
      && |tail| >= 11
      && tail[..4] == [Flag("-filter_complex"), Filters(graph), Flag("-map"), MapLabel(FinalV)]
      && Flag("-i") !in tail
      && (req.hasBgm ==> tail[4..9] == [Flag("-map"), MapAudio(req.imageCount), Flag("-c:a"), Word("aac"), Flag("-shortest")])
      && tail[|tail| - 7..] == [Flag("-c:v"), Word("libx264"), Flag("-pix_fmt"), Word("yuv420p"),
                                Flag("-t"), Seconds(req.imageCount as real * 3.0), File(Output)]
  {
  }

  /** The audio map, `-c:a`, `aac` and `-shortest` follow the inputs exactly when music
      was chosen. */
  lemma TailAudio(req: Request, graph: seq<Stage>)
    ensures var tail := TailTokens(req, graph);
      && (MapAudio(req.imageCount) in tail <==> req.hasBgm)
      && (Flag("-c:a") in tail <==> req.hasBgm)
      && (Word("aac") in tail <==> req.hasBgm)
      && (Flag("-shortest") in tail <==> req.hasBgm)
  {
  }

  /** The click handler from the image check to the finished argument list. */
  method BuildCommand(req: Request) returns (o: Outcome)
    ensures o == Build(req)
  {
    if req.imageCount == 0 {
      return NoImages;
    }
    var imageFiles, staged := StageFiles(req);
    var imageCount := |imageFiles|;
    var command := PushInputs(req, imageFiles);
    var filter := BuildFilterGraph(req, imageCount);
    command := PushOptions(req, filter, command);
    return Job(staged, command);
  }
}

=== FILE: graph.dfy ===
/**
 The `-filter_complex` graph of a slideshow build (script.js:92-125), as a sequence of
 typed stages: one scale/pad stage per image, a chain of cross-fades, one text stage per
 kept caption, and a final overlay or pass-through stage labelled `final_v`.
 */
module Graph {
  import opened Slideshow
  import Text

  /** Step 1 (script.js:95-97): image `i` fitted into the frame as stream `v{i}`. */
  function ScaleStage(i: nat): Stage {
    ScalePad(i, FrameWidth, FrameHeight, V(i))
  }

  function ScaleStages(n: nat): seq<Stage> {
    seq(n, i requires 0 <= i => ScaleStage(i))
  }

  /** The stream holding images 0..i joined by fades: `v0` before any fade, `vt{i-1}` after. */
  function ChainLabel(i: nat): Label {
    if i == 0 then V(0) else VT(i - 1)
  }

  /** Start of the fade from image `i` to image `i+1`: half a second before image `i`'s
      display interval ends. */
  function FadeOffset(i: nat): real {
    (i + 1) as real * ImageDuration - FadeDuration
  }

  /** Step 2 (script.js:100-107): the `i`-th cross-fade. */
  function FadeStage(i: nat): Stage {
    XFade(ChainLabel(i), V(i + 1), FadeDuration, FadeOffset(i), VT(i))
  }

  function FadeStages(n: nat): seq<Stage> {
    if n == 0 then [] else seq(n - 1, i requires 0 <= i => FadeStage(i))
  }

  /** The value of `lastStream` once the fade loop has run. */
  function LastStream(n: nat): Label {
    if n == 0 then V(0) else ChainLabel(n - 1)
  }

  /** The caption test of script.js:112. */
  predicate KeepCaption(caption: string, k: nat, n: nat) {
    Text.Trim(caption) != [] && k < n
  }

  /** Step 3 (script.js:113-116): caption `k` drawn over `last` while image `k` is shown;
      the stage writes back to the label it reads. */
  function CaptionStage(caption: string, k: nat, last: Label): Stage {
    DrawText(last, Text.CaptionText(caption), k as real * ImageDuration,
             k as real * ImageDuration + ImageDuration, last)
  }

  /** The text stages the caption boxes contribute, box by box in document order. */
  function CaptionStages(captions: seq<string>, n: nat, last: Label): seq<Stage> {
    if captions == [] then []
    else
      var k := |captions| - 1;
      CaptionStages(captions[..k], n, last)
        + (if KeepCaption(captions[k], k, n) then [CaptionStage(captions[k], k, last)] else [])
  }

  /** The indices of the boxes that produce a text stage, in box order. */
  function CaptionIndices(captions: seq<string>, n: nat): (idx: seq<nat>)
    ensures forall j :: 0 <= j < |idx| ==> idx[j] < |captions|
  {
    if captions == [] then []
    else
      var k := |captions| - 1;
      CaptionIndices(captions[..k], n) + (if KeepCaption(captions[k], k, n) then [k] else [])
  }

  /** One text stage per listed box, in list order. */
  function StagesFor(captions: seq<string>, idx: seq<nat>, last: Label): seq<Stage>
    requires forall j :: 0 <= j < |idx| ==> idx[j] < |captions|
  {
    seq(|idx|, j requires 0 <= j < |idx| => CaptionStage(captions[idx[j]], idx[j], last))
  }

  lemma StagesForStep(captions: seq<string>, idx: seq<nat>, k: nat, last: Label)
    requires forall j :: 0 <= j < |idx| ==> idx[j] < |captions|
    requires k < |captions|
    ensures StagesFor(captions, idx + [k], last) == StagesFor(captions, idx, last) + [CaptionStage(captions[k], k, last)]
  {
  }

  /** Listing boxes of a prefix reads the same captions as in the whole sequence. */
  lemma StagesForPrefix(captions: seq<string>, m: nat, idx: seq<nat>, last: Label)
    requires m <= |captions|
    requires forall j :: 0 <= j < |idx| ==> idx[j] < m
    ensures StagesFor(captions[..m], idx, last) == StagesFor(captions, idx, last)
  {
  }

  /** The text stages are those of the kept boxes, in box order. */
  lemma {:induction false} CaptionStagesIndexed(captions: seq<string>, n: nat, last: Label)
    ensures CaptionStages(captions, n, last) == StagesFor(captions, CaptionIndices(captions, n), last)
  {
    if captions != [] {
      var k := |captions| - 1;
      var front := captions[..k];
      var prev := CaptionIndices(front, n);
      CaptionStagesIndexed(front, n, last);
      StagesForPrefix(captions, k, prev, last);
      if KeepCaption(captions[k], k, n) {
        StagesForStep(captions, prev, k, last);
      }
    }
  }

  /** The kept boxes are exactly those whose trimmed text is non-empty and whose image
      exists, listed once each in increasing order. */
  lemma {:induction false} CaptionIndicesSpec(captions: seq<string>, n: nat)
    ensures var idx := CaptionIndices(captions, n);
      && (forall i, j :: 0 <= i < j < |idx| ==> idx[i] < idx[j])
      && (forall k :: 0 <= k < |captions| ==> (k in idx <==> KeepCaption(captions[k], k, n)))
  {
    if captions != [] {
      var k := |captions| - 1;
      var front := captions[..k];
      CaptionIndicesSpec(front, n);
      var prev := CaptionIndices(front, n);
      assert forall i :: 0 <= i < k ==> front[i] == captions[i];
      if KeepCaption(captions[k], k, n) {
        var idx := prev + [k];
        assert idx == CaptionIndices(captions, n);
        assert forall j :: 0 <= j < |prev| ==> idx[j] == prev[j];
      } else {
        assert prev == CaptionIndices(captions, n);
      }
    }
  }

  /** Step 4 (script.js:121-125): the frame overlaid on the end of the chain, or the chain
      passed through, as `final_v`. */
  function FinalStage(last: Label, overlayInput: nat, polaroid: bool): Stage {
    if polaroid then Overlay(last, overlayInput, FinalV) else PassThrough(last, FinalV)
  }

  /** The graph for `n` images with the text stages `texts`, in the order the source
      appends to `filterComplex`: scale stages, fades, texts, final stage. */
  function Assemble(n: nat, texts: seq<Stage>, overlayInput: nat, polaroid: bool): seq<Stage> {
    ScaleStages(n) + FadeStages(n) + texts + [FinalStage(LastStream(n), overlayInput, polaroid)]
  }

  /** The whole graph of a request. As written, the overlay names input `imageCount`. */
  function FilterGraph(req: Request): seq<Stage> {
    var n := req.imageCount;
    Assemble(n, CaptionStages(req.captions, n, LastStream(n)), n, req.Polaroid())
  }

  /** The input position `template1.png` actually occupies: after the images and, when
      present, after `bgm.mp3`. */
  function TemplateInputIndex(req: Request): nat {
    req.imageCount + (if req.hasBgm then 1 else 0)
  }

  /** The graph with the overlay pointed at the template's real input position. */
  function CorrectedFilterGraph(req: Request): seq<Stage> {
    var n := req.imageCount;
    Assemble(n, CaptionStages(req.captions, n, LastStream(n)), TemplateInputIndex(req), req.Polaroid())
  }

  // ---- views used to state properties of a graph ----

  datatype Kind = ScaleKind | FadeKind | TextKind | OverlayKind | NullKind

  function KindOf(s: Stage): Kind {
    match s
    case ScalePad(_, _, _, _) => ScaleKind
    case XFade(_, _, _, _, _) => FadeKind
    case DrawText(_, _, _, _, _) => TextKind
    case Overlay(_, _, _) => OverlayKind
    case PassThrough(_, _) => NullKind
  }

  /** Number of stages of kind `k` in `g`. */
  function Count(g: seq<Stage>, k: Kind): nat {
    if g == [] then 0 else (if KindOf(g[0]) == k then 1 else 0) + Count(g[1..], k)
  }

  /** The labelled streams a stage reads (inputs named by index are not labels). */
  function Consumes(s: Stage): seq<Label> {
    match s
    case ScalePad(_, _, _, _) => []
    case XFade(a, b, _, _, _) => [a, b]
    case DrawText(src, _, _, _, _) => [src]
    case Overlay(src, _, _) => [src]
    case PassThrough(src, _) => [src]
  }

  /** Every label a stage reads was written by an earlier stage. */
  predicate WellLinked(g: seq<Stage>) {
    forall k, l :: 0 <= k < |g| && l in Consumes(g[k]) ==> exists j :: 0 <= j < k && g[j].out == l
  }
}

=== FILE: progress.dfy ===
/**
 The progress callback handed to the encoder (script.js:16-28): the engine reports a
 fractional `ratio`, the page shows it as a percentage on a bar whose range is [0, 100],
 and hides the progress area once the ratio reaches 1.
 */
module Progress {

  /** What one progress report does to the page. */
  datatype Update = Update(barValue: real, hideArea: bool)

  /** `ratio * 100`, raised to 0 when below and lowered to 100 when above. */
  function Clamp(ratio: real): (p: real)
    ensures 0.0 <= p <= 100.0
    ensures 0.0 <= ratio <= 1.0 ==> p == ratio * 100.0
    ensures ratio < 0.0 ==> p == 0.0
    ensures ratio > 1.0 ==> p == 100.0
  {
    var progress := ratio * 100.0;
    var raised := if progress < 0.0 then 0.0 else progress;
    if raised > 100.0 then 100.0 else raised
  }

  /** The bar value and whether the (delayed) hiding of the progress area is scheduled:
      the bar shows the clamped percentage, and the hiding is scheduled exactly when the
      bar is full. */
  function OnProgress(ratio: real): (u: Update)
    ensures u.barValue == Clamp(ratio)
    ensures 0.0 <= u.barValue <= 100.0
    ensures u.hideArea <==> u.barValue == 100.0
  {
    Update(Clamp(ratio), ratio >= 1.0)
  }

  /** A later, larger ratio never moves the bar backwards. */
  lemma ClampMonotone(r1: real, r2: real)
    requires r1 <= r2
    ensures Clamp(r1) <= Clamp(r2)
  {
  }
}

=== FILE: properties.dfy ===
/**
 What a slideshow build promises, stated over the declarative model: the order of the
 encoder's inputs, the shape and timing of the filter graph, the caption windows, the
 audio options, the tail of the argument list, and the overlay's input reference.
 */
module Properties {
  import opened Slideshow
  import Text
  import Graph
  import Command
  import Sequences

  // ---- reading the inputs back from the argument list ----

  lemma {:induction false} InputsOfAppend(a: seq<Token>, b: seq<Token>)
    requires a == [] || a[|a| - 1] != Flag("-i")
    ensures Command.InputsOf(a + b) == Command.InputsOf(a) + Command.InputsOf(b)
  {
    if a == [] {
      assert a + b == b;
    } else if a[0] == Flag("-i") && |a| >= 2 && a[1].File? {
      var ab := a + b;
      assert Command.InputsOf(ab) == [a[1].file] + Command.InputsOf(a[2..] + b) by {
        assert ab[0] == a[0] && ab[1] == a[1];
        assert ab[2..] == a[2..] + b;
      }
      InputsOfAppend(a[2..], b);
      assert Command.InputsOf(a) == [a[1].file] + Command.InputsOf(a[2..]);
    } else {
      var ab := a + b;
      assert Command.InputsOf(ab) == Command.InputsOf(a[1..] + b) by {
        assert ab[0] == a[0];
        if a[0] == Flag("-i") {
          assert |a| >= 2 && ab[1] == a[1];
        }
        assert ab[1..] == a[1..] + b;
      }
      InputsOfAppend(a[1..], b);
      assert Command.InputsOf(a) == Command.InputsOf(a[1..]);
    }
  }

  lemma {:induction false} InputsOfWithoutInputFlag(t: seq<Token>)
    requires Flag("-i") !in t
    ensures Command.InputsOf(t) == []
  {
    if t != [] {
      InputsOfWithoutInputFlag(t[1..]);
    }
  }

  lemma InputsOfPair(f: FileName)
    ensures Command.InputsOf([Flag("-i"), File(f)]) == [f]
  {
    assert [Flag("-i"), File(f)][2..] == [];
  }

  /** The image input options are `n` pairs `-i image{j}.png`, in index order; so every
      element is a `-i` flag or a file, and the last is a file. */
  lemma {:induction false} ImageInputTokensShape(n: nat)
    ensures |Command.ImageInputTokens(n)| == 2 * n
    ensures forall j :: 0 <= j < n ==>
      Command.ImageInputTokens(n)[2 * j] == Flag("-i") && Command.ImageInputTokens(n)[2 * j + 1] == File(Image(j))
    ensures forall j :: 0 <= j < |Command.ImageInputTokens(n)| ==>
      Command.ImageInputTokens(n)[j] == Flag("-i") || Command.ImageInputTokens(n)[j].File?
    ensures n > 0 ==> Command.ImageInputTokens(n)[|Command.ImageInputTokens(n)| - 1].File?
  {
    if n > 0 {
      ImageInputTokensShape(n - 1);
    }
  }

  lemma {:induction false} ImageInputsRead(n: nat)
    ensures Command.InputsOf(Command.ImageInputTokens(n)) == Command.ImageFiles(n)
  {
    if n > 0 {
      var prev := Command.ImageInputTokens(n - 1);
      ImageInputsRead(n - 1);
      ImageInputTokensShape(n - 1);
      InputsOfAppend(prev, [Flag("-i"), File(Image(n - 1))]);
      InputsOfPair(Image(n - 1));
      assert Command.ImageFiles(n) == Command.ImageFiles(n - 1) + [Image(n - 1)];
    }
  }

  /** The two optional inputs, read ahead of a tail that names no input. */
  lemma OptionalInputs(req: Request, rest: seq<Token>)
    requires Flag("-i") !in rest
    ensures Command.InputsOf(Command.OptionalInputTokens(req) + rest)
         == (if req.hasBgm then [Bgm] else []) + (if req.Polaroid() then [TemplateImage] else [])
  {
    var bgm: seq<Token> := if req.hasBgm then [Flag("-i"), File(Bgm)] else [];
    var tmpl: seq<Token> := if req.Polaroid() then [Flag("-i"), File(TemplateImage)] else [];
    assert Command.OptionalInputTokens(req) + rest == bgm + (tmpl + rest);
    InputsOfWithoutInputFlag(rest);
    if tmpl != [] {
      InputsOfPair(TemplateImage);
      InputsOfAppend(tmpl, rest);
    } else {
      assert tmpl + rest == rest;
    }
    if bgm != [] {
      InputsOfPair(Bgm);
      InputsOfAppend(bgm, tmpl + rest);
    } else {
      assert bgm + (tmpl + rest) == tmpl + rest;
    }
  }

  /** The encoder sees `image0.png` … `image{n-1}.png` as inputs 0 … n-1, then `bgm.mp3`
      exactly when music was chosen, then `template1.png` exactly when `polaroid` is
      checked, and nothing else; the filter graph in between does not change this. */
  lemma InputOrderWith(req: Request, graph: seq<Stage>)
    ensures Command.InputsOf(Command.ArgsWith(req, graph))
         == Command.ImageFiles(req.imageCount)
          + (if req.hasBgm then [Bgm] else [])
          + (if req.Polaroid() then [TemplateImage] else [])
  {
    var n := req.imageCount;
    var images := Command.ImageInputTokens(n);
    var tail := Command.OptionalInputTokens(req) + Command.TailTokens(req, graph);
    var music: seq<FileName> := if req.hasBgm then [Bgm] else [];
    var frame: seq<FileName> := if req.Polaroid() then [TemplateImage] else [];
    assert Command.InputsOf(tail) == music + frame by {
      Command.TailShape(req, graph);
      OptionalInputs(req, Command.TailTokens(req, graph));
    }
    assert Command.InputsOf(images) == Command.ImageFiles(n) by {
      ImageInputsRead(n);
    }
    assert Command.InputsOf(images + tail) == Command.InputsOf(images) + Command.InputsOf(tail) by {
      ImageInputTokensShape(n);
      if n > 0 {
        InputsOfAppend(images, tail);
      } else {
        assert images + tail == tail;
      }
    }
    assert Command.ArgsWith(req, graph) == images + tail by {
      Sequences.AppendAssoc(images, Command.OptionalInputTokens(req), Command.TailTokens(req, graph));
    }
    Sequences.AppendAssoc(Command.ImageFiles(n), music, frame);
  }

  /** The encoder's inputs for a build are the staged files other than the font, in
      staging order. */
  lemma InputOrder(req: Request)
    ensures Command.InputsOf(Command.Args(req))
         == Command.ImageFiles(req.imageCount)
          + (if req.hasBgm then [Bgm] else [])
          + (if req.Polaroid() then [TemplateImage] else [])
  {
    InputOrderWith(req, Graph.FilterGraph(req));
  }

  /** Every file the encoder reads as an input was staged before the run, and a rejected
      request stages nothing. */
  lemma InputsAreStaged(req: Request)
    ensures Command.Build(req).NoImages? ==> req.imageCount == 0
    ensures Command.Build(req).Job? ==>
      forall f :: f in Command.InputsOf(Command.Build(req).args) ==> f in Command.Build(req).staged
  {
    InputOrder(req);
  }

  // ---- counting stages ----

  lemma {:induction false} CountAppend(a: seq<Stage>, b: seq<Stage>, k: Graph.Kind)
    ensures Graph.Count(a + b, k) == Graph.Count(a, k) + Graph.Count(b, k)
  {
    if a != [] {
      var ab := a + b;
      assert ab[0] == a[0];
      assert ab[1..] == a[1..] + b;
      CountAppend(a[1..], b, k);
    } else {
      assert a + b == b;
    }
  }

  lemma {:induction false} CountUniform(g: seq<Stage>, k0: Graph.Kind, k: Graph.Kind)
    requires forall j :: 0 <= j < |g| ==> Graph.KindOf(g[j]) == k0
    ensures Graph.Count(g, k) == if k == k0 then |g| else 0
  {
    if g != [] {
      CountUniform(g[1..], k0, k);
    }
  }

  // ---- the shape of an assembled graph, for any text stages ----

  /** Where each part of an assembled graph sits: `n` scale stages, then `n-1` fades,
      then the text stages, then the final stage. */
  lemma Layout(n: nat, texts: seq<Stage>, overlayInput: nat, polaroid: bool, g: seq<Stage>)
    requires n >= 1
    requires g == Graph.Assemble(n, texts, overlayInput, polaroid)
    ensures |g| == 2 * n + |texts|
    ensures forall k :: 0 <= k < n ==> g[k] == Graph.ScaleStage(k)
    ensures forall k :: n <= k < 2 * n - 1 ==> g[k] == Graph.FadeStage(k - n)
    ensures forall k :: 2 * n - 1 <= k < |g| - 1 ==> g[k] == texts[k - (2 * n - 1)]
    ensures g[|g| - 1] == Graph.FinalStage(Graph.LastStream(n), overlayInput, polaroid)
  {
  }

  /** An assembled graph has one scale stage per image, one fade per adjacent pair of
      images, its text stages, and exactly one final stage, which is an overlay precisely
      when `polaroid` is checked. */
  lemma AssembleCounts(n: nat, texts: seq<Stage>, overlayInput: nat, polaroid: bool, k: Graph.Kind)
    requires n >= 1
    requires forall j :: 0 <= j < |texts| ==> texts[j].DrawText?
    ensures Graph.Count(Graph.Assemble(n, texts, overlayInput, polaroid), k) == match k
      case ScaleKind => n
      case FadeKind => n - 1
      case TextKind => |texts|
      case OverlayKind => if polaroid then 1 else 0
      case NullKind => if polaroid then 0 else 1
  {
    var scale := Graph.ScaleStages(n);
    var fade := Graph.FadeStages(n);
    var fin := [Graph.FinalStage(Graph.LastStream(n), overlayInput, polaroid)];
    CountUniform(scale, Graph.ScaleKind, k);
    CountUniform(fade, Graph.FadeKind, k);
    CountUniform(texts, Graph.TextKind, k);
    CountUniform(fin, Graph.KindOf(fin[0]), k);
    CountAppend(scale, fade, k);
    CountAppend(scale + fade, texts, k);
    CountAppend(scale + fade + texts, fin, k);
  }

  /** An assembled graph whose text stages do not write `final_v` ends in the only stage
      that does; it reads the end of the chain, and is an overlay of `overlayInput` when
      `polaroid` is checked and a pass-through otherwise. */
  lemma AssembleFinal(n: nat, texts: seq<Stage>, overlayInput: nat, polaroid: bool)
    requires n >= 1
    requires forall j :: 0 <= j < |texts| ==> texts[j].out != FinalV
    ensures var g := Graph.Assemble(n, texts, overlayInput, polaroid);
      var f := g[|g| - 1];
      && f.out == FinalV
      && (forall j :: 0 <= j < |g| - 1 ==> g[j].out != FinalV)
      && (f.Overlay? || f.PassThrough?) && f.src == Graph.LastStream(n)
      && (f.Overlay? <==> polaroid)
      && (f.Overlay? ==> f.input == overlayInput)
  {
    var g := Graph.Assemble(n, texts, overlayInput, polaroid);
    Layout(n, texts, overlayInput, polaroid, g);
    forall j | 0 <= j < |g| - 1
      ensures g[j].out != FinalV
    {
      if j < n {
        assert g[j] == Graph.ScaleStage(j);
      } else if j < 2 * n - 1 {
        assert g[j] == Graph.FadeStage(j - n);
      } else {
        assert g[j] == texts[j - (2 * n - 1)];
      }
    }
  }

  /** A graph laid out as scale stages, then the fade chain, then stages reading the end
      of the chain, has every label it reads written before it is read. */
  lemma {:induction false} LayoutWellLinked(g: seq<Stage>, n: nat)
    requires n >= 1 && |g| >= 2 * n - 1
    requires forall i :: 0 <= i < n ==> g[i] == Graph.ScaleStage(i)
    requires forall k :: n <= k < 2 * n - 1 ==> g[k] == Graph.FadeStage(k - n)
    requires forall j :: 2 * n - 1 <= j < |g| ==> Graph.Consumes(g[j]) == [Graph.LastStream(n)]
    ensures Graph.WellLinked(g)
  {
    var lastAt := if n == 1 then 0 else 2 * n - 2;
    if n == 1 {
      assert g[0] == Graph.ScaleStage(0);
    } else {
      assert g[2 * n - 2] == Graph.FadeStage(n - 2);
    }
    assert g[lastAt].out == Graph.LastStream(n);
    forall k, l | 0 <= k < |g| && l in Graph.Consumes(g[k])
      ensures exists j :: 0 <= j < k && g[j].out == l
    {
      if k < n {
        assert false;
      } else if k < 2 * n - 1 {
        var i := k - n;
        assert g[k] == Graph.FadeStage(i);
        assert g[i + 1] == Graph.ScaleStage(i + 1);
        if l == V(i + 1) {
          assert g[i + 1].out == l;
        } else if i == 0 {
          assert g[0] == Graph.ScaleStage(0);
          assert g[0].out == l;
        } else {
          assert g[k - 1] == Graph.FadeStage(i - 1);
          assert g[k - 1].out == l;
        }
      } else {
        assert g[lastAt].out == l;
      }
    }
  }

  /** An assembled graph whose text stages all read the end of the fade chain has every
      label it reads written by an earlier stage. */
  lemma AssembleWellLinked(n: nat, texts: seq<Stage>, overlayInput: nat, polaroid: bool)
    requires n >= 1
    requires forall j :: 0 <= j < |texts| ==> Graph.Consumes(texts[j]) == [Graph.LastStream(n)]
    ensures Graph.WellLinked(Graph.Assemble(n, texts, overlayInput, polaroid))
  {
    var g := Graph.Assemble(n, texts, overlayInput, polaroid);
    Layout(n, texts, overlayInput, polaroid, g);
    forall j | 2 * n - 1 <= j < |g|
      ensures Graph.Consumes(g[j]) == [Graph.LastStream(n)]
    {
      if j < |g| - 1 {
        assert g[j] == texts[j - (2 * n - 1)];
      }
    }
    LayoutWellLinked(g, n);
  }

  /** The fades form one chain starting from `v0`: fade `i` joins the chain so far with
      `v{i+1}` into `vt{i}`; it ends exactly where image `i`'s interval ends, so the
      offsets strictly increase and all fall inside the video; the chain ends in `v0`
      for one image and in `vt{n-2}` otherwise. */
  lemma FadeChain(n: nat)
    requires n >= 1
    ensures var f := Graph.FadeStages(n);
      && |f| == n - 1
      && (forall i :: 0 <= i < |f| ==>
            && f[i].XFade?
            && f[i].first == (if i == 0 then V(0) else VT(i - 1))
            && f[i].second == V(i + 1)
            && f[i].out == VT(i)
            && f[i].duration == FadeDuration
            && f[i].offset + FadeDuration == (i + 1) as real * ImageDuration
            && 0.0 < f[i].offset < TotalDuration(n))
      && (forall i, j :: 0 <= i < j < |f| ==> f[i].offset < f[j].offset)
      && Graph.LastStream(n) == (if n == 1 then V(0) else f[n - 2].out)
  {
    var f := Graph.FadeStages(n);
    forall i | 0 <= i < |f|
      ensures f[i] == Graph.FadeStage(i)
      ensures 0.0 < f[i].offset < TotalDuration(n)
    {
      FadeInsideVideo(i, n);
    }
    forall i, j | 0 <= i < j < |f|
      ensures f[i].offset < f[j].offset
    {
      assert f[i] == Graph.FadeStage(i) && f[j] == Graph.FadeStage(j);
      FadeOffsetsIncrease(i, j);
    }
  }

  lemma FadeInsideVideo(i: nat, n: nat)
    requires i < n - 1
    ensures 0.0 < Graph.FadeOffset(i) < TotalDuration(n)
  {
    assert (i + 1) as real <= (n - 1) as real;
  }

  lemma FadeOffsetsIncrease(i: nat, j: nat)
    requires i < j
    ensures Graph.FadeOffset(i) < Graph.FadeOffset(j)
  {
    assert (i + 1) as real < (j + 1) as real;
  }

  lemma WindowInsideVideo(k: nat, n: nat)
    requires k < n
    ensures 0.0 <= k as real * ImageDuration
    ensures k as real * ImageDuration + ImageDuration <= TotalDuration(n)
  {
    assert (k + 1) as real <= n as real;
  }

  lemma WindowsInOrder(a: nat, b: nat)
    requires a < b
    ensures a as real * ImageDuration + ImageDuration <= b as real * ImageDuration
  {
    assert (a + 1) as real <= b as real;
  }

  /** Caption box `k` yields a text stage exactly when its trimmed text is non-empty and
      image `k` exists. The stages (`t`) keep box order (`idx`), read and write the end
      of the fade chain, draw the trimmed text with its quotes doubled, are enabled over
      image `k`'s interval [3k, 3k+3], and their windows follow one another inside the
      video. */
  lemma CaptionOverlays(captions: seq<string>, n: nat, last: Label, t: seq<Stage>, idx: seq<nat>)
    requires t == Graph.CaptionStages(captions, n, last)
    requires idx == Graph.CaptionIndices(captions, n)
    ensures forall k :: 0 <= k < |captions| ==> (k in idx <==> Text.Trim(captions[k]) != [] && k < n)
    ensures |t| == |idx|
    ensures forall j :: 0 <= j < |t| ==>
      && idx[j] < n
      && t[j].DrawText?
      && t[j].src == t[j].out == last
      && t[j].text == Text.Escape(Text.Trim(captions[idx[j]]))
      && t[j].start == idx[j] as real * ImageDuration
      && t[j].end == t[j].start + ImageDuration
      && 0.0 <= t[j].start && t[j].end <= TotalDuration(n)
    ensures forall i, j :: 0 <= i < j < |t| ==> idx[i] < idx[j] && t[i].end <= t[j].start
  {
    Graph.CaptionIndicesSpec(captions, n);
    CaptionStagesAt(captions, n, last, t, idx);
    forall j | 0 <= j < |t|
      ensures idx[j] < n && 0.0 <= t[j].start && t[j].end <= TotalDuration(n)
    {
      assert idx[j] in idx;
      WindowInsideVideo(idx[j], n);
    }
    forall i, j | 0 <= i < j < |t|
      ensures t[i].end <= t[j].start
    {
      assert t[i] == Graph.CaptionStage(captions[idx[i]], idx[i], last);
      assert t[j] == Graph.CaptionStage(captions[idx[j]], idx[j], last);
      WindowsInOrder(idx[i], idx[j]);
    }
  }

  /** Text stage `j` draws caption box `idx[j]`. */
  lemma CaptionStagesAt(captions: seq<string>, n: nat, last: Label, t: seq<Stage>, idx: seq<nat>)
    requires t == Graph.CaptionStages(captions, n, last)
    requires idx == Graph.CaptionIndices(captions, n)
    ensures |t| == |idx|
    ensures forall j :: 0 <= j < |idx| ==> idx[j] < |captions| && t[j] == Graph.CaptionStage(captions[idx[j]], idx[j], last)
  {
    Graph.CaptionStagesIndexed(captions, n, last);
  }

  /** The caption stages read and write the end of the chain, so they never write
      `final_v`. */
  lemma CaptionStagesReadChain(captions: seq<string>, n: nat, t: seq<Stage>)
    requires t == Graph.CaptionStages(captions, n, Graph.LastStream(n))
    ensures forall j :: 0 <= j < |t| ==>
      && t[j].DrawText?
      && Graph.Consumes(t[j]) == [Graph.LastStream(n)]
      && t[j].out == Graph.LastStream(n)
    ensures forall j :: 0 <= j < |t| ==> t[j].out != FinalV
  {
    CaptionStagesAt(captions, n, Graph.LastStream(n), t, Graph.CaptionIndices(captions, n));
  }

  // ---- the graph of a build ----

  /** A build's graph has `n` scale stages, `n-1` fades, one text stage per kept caption,
      and one final stage, an overlay exactly when `polaroid` is checked. */
  lemma StageCounts(req: Request, k: Graph.Kind)
    requires req.imageCount >= 1
    ensures Graph.Count(Graph.FilterGraph(req), k) == match k
      case ScaleKind => req.imageCount
      case FadeKind => req.imageCount - 1
      case TextKind => |Graph.CaptionIndices(req.captions, req.imageCount)|
      case OverlayKind => if req.Polaroid() then 1 else 0
      case NullKind => if req.Polaroid() then 0 else 1
  {
    var n := req.imageCount;
    var texts := Graph.CaptionStages(req.captions, n, Graph.LastStream(n));
    CaptionStagesReadChain(req.captions, n, texts);
    CaptionStagesAt(req.captions, n, Graph.LastStream(n), texts, Graph.CaptionIndices(req.captions, n));
    AssembleCounts(n, texts, n, req.Polaroid(), k);
  }

  /** Scale stage `i` reads input `i`, which is `image{i}.png`, and writes `v{i}` in the
      1080x1920 frame. */
  lemma ScaleStagesReadImages(req: Request)
    requires req.imageCount >= 1
    ensures var n := req.imageCount;
      var g := Graph.FilterGraph(req);
      var inputs := Command.InputsOf(Command.Args(req));
      forall i :: 0 <= i < n ==>
        && g[i].ScalePad? && g[i].out == V(i)
        && g[i].width == 1080 && g[i].height == 1920
        && g[i].input < |inputs| && inputs[g[i].input] == Image(i)
  {
    var n := req.imageCount;
    var texts := Graph.CaptionStages(req.captions, n, Graph.LastStream(n));
    var g := Graph.FilterGraph(req);
    var a := Graph.Assemble(n, texts, n, req.Polaroid());
    var inputs := Command.InputsOf(Command.Args(req));
    var images := Command.ImageFiles(n);
    var rest := (if req.hasBgm then [Bgm] else []) + (if req.Polaroid() then [TemplateImage] else []);
    assert g == a;
    Layout(n, texts, n, req.Polaroid(), a);
    InputOrder(req);
    assert inputs == images + rest;
    forall i | 0 <= i < n
      ensures g[i] == Graph.ScaleStage(i) && inputs[i] == Image(i)
    {
      assert a[i] == Graph.ScaleStage(i);
      assert inputs[i] == images[i];
    }
  }

  /** The build's graph ends in the only stage writing `final_v`: an overlay against
      input `imageCount` when `polaroid` is checked, a pass-through otherwise. */
  lemma FinalStageSpec(req: Request)
    requires req.imageCount >= 1
    ensures var g := Graph.FilterGraph(req);
      var f := g[|g| - 1];
      && f.out == FinalV
      && (forall j :: 0 <= j < |g| - 1 ==> g[j].out != FinalV)
      && (f.Overlay? || f.PassThrough?) && f.src == Graph.LastStream(req.imageCount)
      && (f.Overlay? <==> req.Polaroid())
      && (f.Overlay? ==> f.input == req.imageCount)
  {
    var n := req.imageCount;
    var texts := Graph.CaptionStages(req.captions, n, Graph.LastStream(n));
    CaptionStagesReadChain(req.captions, n, texts);
    AssembleFinal(n, texts, n, req.Polaroid());
  }

  /** Every label a stage of a build's graph reads is written by an earlier stage. */
  lemma GraphWellLinked(req: Request)
    requires req.imageCount >= 1
    ensures Graph.WellLinked(Graph.FilterGraph(req))
  {
    var n := req.imageCount;
    var texts := Graph.CaptionStages(req.captions, n, Graph.LastStream(n));
    CaptionStagesReadChain(req.captions, n, texts);
    AssembleWellLinked(n, texts, n, req.Polaroid());
  }

  // ---- the options around the graph ----

  /** The input options are `-i` flags and file names only. */
  lemma {:induction false} InputTokensShape(req: Request)
    ensures forall t :: t in Command.InputTokens(req) ==> t == Flag("-i") || t.File?
  {
    var images := Command.ImageInputTokens(req.imageCount);
    ImageInputTokensShape(req.imageCount);
    assert forall t :: t in images ==> t == Flag("-i") || t.File?;
  }

  /** Tokens that are neither `-i` nor a file are found in `inputs + tail` exactly when
      `tail` has them, and a run of `tail` stays a run after the inputs. */
  lemma AfterInputs(inputs: seq<Token>, tail: seq<Token>, x: Token, i: nat, j: nat)
    requires forall t :: t in inputs ==> t == Flag("-i") || t.File?
    requires x != Flag("-i") && !x.File?
    requires i <= j <= |tail|
    ensures x in inputs + tail <==> x in tail
    ensures (inputs + tail)[|inputs| + i..|inputs| + j] == tail[i..j]
  {
  }

  /** The audio map, `-c:a aac` and `-shortest` appear exactly when music was chosen,
      and then together, right after the graph and its mapping. */
  lemma AudioOnlyWithMusic(req: Request, graph: seq<Stage>)
    ensures var args := Command.ArgsWith(req, graph);
      && (MapAudio(req.imageCount) in args <==> req.hasBgm)
      && (Flag("-c:a") in args <==> req.hasBgm)
      && (Word("aac") in args <==> req.hasBgm)
      && (Flag("-shortest") in args <==> req.hasBgm)
    ensures var args := Command.ArgsWith(req, graph);
      var k := |Command.InputTokens(req)| + 4;
      req.hasBgm ==>
        (|args| >= k + 5
         && args[k..k + 5] == [Flag("-map"), MapAudio(req.imageCount), Flag("-c:a"), Word("aac"), Flag("-shortest")])
  {
    var inputs := Command.InputTokens(req);
    var tail := Command.TailTokens(req, graph);
    InputTokensShape(req);
    Command.TailShape(req, graph);
    Command.TailAudio(req, graph);
    assert req.hasBgm ==> |tail| >= 9 && tail[4..9] == Command.AudioTokens(req);
    var w := if req.hasBgm then 9 else 4;
    AfterInputs(inputs, tail, MapAudio(req.imageCount), 4, w);
    AfterInputs(inputs, tail, Flag("-c:a"), 4, w);
    AfterInputs(inputs, tail, Word("aac"), 4, w);
    AfterInputs(inputs, tail, Flag("-shortest"), 4, w);
  }

  /** With music, the audio map's input `imageCount` is `bgm.mp3`. */
  lemma AudioMapNamesMusic(req: Request, graph: seq<Stage>)
    requires req.hasBgm
    ensures var args := Command.ArgsWith(req, graph);
      var inputs := Command.InputsOf(args);
      |inputs| > req.imageCount && inputs[req.imageCount] == Bgm
      && MapAudio(req.imageCount) in args
  {
    InputOrderWith(req, graph);
    AudioOnlyWithMusic(req, graph);
  }

  /** The list always carries the graph and the `final_v` mapping, and ends with the video
      codec, the pixel format, the length `imageCount * 3` and the output name. */
  lemma ArgsEnd(req: Request, graph: seq<Stage>)
    ensures var args := Command.ArgsWith(req, graph);
      && |args| >= 7
      && args[|args| - 7..] == [Flag("-c:v"), Word("libx264"), Flag("-pix_fmt"), Word("yuv420p"),
                                Flag("-t"), Seconds(req.imageCount as real * 3.0), File(Output)]
      && Filters(graph) in args && MapLabel(FinalV) in args
  {
  }

  // ---- the overlay input ----

  /** As written: with both music and `polaroid`, the overlay names input `imageCount`,
      which is `bgm.mp3`; `template1.png` is input `imageCount + 1`. */
  lemma OverlayNamesMusicWhenBoth(req: Request)
    requires req.imageCount >= 1 && req.hasBgm && req.Polaroid()
    ensures var n := req.imageCount;
      var g := Graph.FilterGraph(req);
      var inputs := Command.InputsOf(Command.Args(req));
      && g[|g| - 1].Overlay? && g[|g| - 1].input == n
      && |inputs| == n + 2
      && inputs[n] == Bgm && inputs[n + 1] == TemplateImage
  {
    FinalStageSpec(req);
    InputOrder(req);
  }

  /** Without music the same reference is right: input `imageCount` is the template. */
  lemma OverlayNamesTemplateWithoutMusic(req: Request)
    requires req.imageCount >= 1 && !req.hasBgm && req.Polaroid()
    ensures var g := Graph.FilterGraph(req);
      var inputs := Command.InputsOf(Command.Args(req));
      g[|g| - 1].Overlay? && g[|g| - 1].input < |inputs| && inputs[g[|g| - 1].input] == TemplateImage
  {
    FinalStageSpec(req);
    InputOrder(req);
  }

  /** With the overlay pointed at the template's real position, the overlay draws
      `template1.png` whatever else was chosen, and the graph stays well linked. */
  lemma CorrectedOverlayNamesTemplate(req: Request)
    requires req.imageCount >= 1 && req.Polaroid()
    ensures var g := Graph.CorrectedFilterGraph(req);
      var f := g[|g| - 1];
      var inputs := Command.InputsOf(Command.ArgsWith(req, g));
      && f.Overlay? && f.out == FinalV
      && f.input < |inputs| && inputs[f.input] == TemplateImage
      && Graph.WellLinked(g)
  {
    var n := req.imageCount;
    var texts := Graph.CaptionStages(req.captions, n, Graph.LastStream(n));
    CaptionStagesReadChain(req.captions, n, texts);
    AssembleFinal(n, texts, Graph.TemplateInputIndex(req), true);
    AssembleWellLinked(n, texts, Graph.TemplateInputIndex(req), true);
    InputOrderWith(req, Graph.CorrectedFilterGraph(req));
  }

  // ---- caption text ----

  /** Undoing the quote doubling gives back the trimmed caption, and the drawn text holds
      no lone quote. */
  lemma CaptionTextRoundTrip(s: string)
    ensures Text.Unescape(Text.CaptionText(s)) == Text.Trim(s)
    ensures Text.WellEscaped(Text.CaptionText(s))
    ensures |Text.CaptionText(s)| == |Text.Trim(s)| + multiset(Text.Trim(s))[Text.Quote]
  {
    Text.UnescapeEscape(Text.Trim(s));
    Text.EscapeWellEscaped(Text.Trim(s));
  }

  // ---- a worked example ----

  lemma ExampleCaption()
    ensures Text.Trim("Hi") == "Hi"
    ensures Text.CaptionText("Hi") == "Hi"
  {
    assert Text.TrimStart("Hi") == "Hi";
    assert Text.TrimEnd("Hi") == "Hi";
    assert Text.Escape("Hi") == "Hi";
  }

  /** The caption "Hi" in the first of three boxes is kept and drawn over [0, 3]. */
  lemma ExampleStages()
    ensures Graph.CaptionIndices(["Hi"], 3) == [0]
    ensures Graph.CaptionStages(["Hi"], 3, VT(1)) == [DrawText(VT(1), "Hi", 0.0, 3.0, VT(1))]
  {
    ExampleCaption();
    assert ["Hi"][..0] == [];
    assert Graph.KeepCaption("Hi", 0, 3);
    assert Graph.CaptionStage("Hi", 0, VT(1)) == DrawText(VT(1), "Hi", 0.0, 3.0, VT(1));
  }

  /** Three images, no music, no frame, one caption "Hi" on the first image: three scale
      stages, two fades, one text stage over [0, 3] on the end of the chain, and a
      pass-through. */
  lemma ThreeImagesOneCaption(req: Request)
    requires req == Request(3, ["Hi"], false, "none")
    ensures var g := Graph.FilterGraph(req);
      && |g| == 7
      && Graph.Count(g, Graph.ScaleKind) == 3
      && Graph.Count(g, Graph.FadeKind) == 2
      && Graph.Count(g, Graph.TextKind) == 1
      && g[5] == DrawText(VT(1), "Hi", 0.0, 3.0, VT(1))
      && g[6] == PassThrough(VT(1), FinalV)
  {
    var texts := Graph.CaptionStages(req.captions, 3, VT(1));
    ExampleStages();
    assert Graph.FilterGraph(req) == Graph.Assemble(3, texts, 3, false);
    AssembleCounts(3, texts, 3, false, Graph.ScaleKind);
    AssembleCounts(3, texts, 3, false, Graph.FadeKind);
    AssembleCounts(3, texts, 3, false, Graph.TextKind);
    Layout(3, texts, 3, false, Graph.Assemble(3, texts, 3, false));
  }

  /** The same build runs for 9 seconds and has no audio options. */
  lemma ThreeImagesNoAudio(req: Request)
    requires req == Request(3, ["Hi"], false, "none")
    ensures var args := Command.Args(req);
      && Seconds(9.0) in args
      && MapAudio(3) !in args && Flag("-c:a") !in args && Word("aac") !in args && Flag("-shortest") !in args
  {
    AudioOnlyWithMusic(req, Graph.FilterGraph(req));
    ArgsEnd(req, Graph.FilterGraph(req));
  }
}

=== FILE: sequences.dfy ===
/** Facts about sequences shared by the other modules. */
module Sequences {

  /** Concatenation regroups freely. */
  lemma AppendAssoc<T>(a: seq<T>, b: seq<T>, c: seq<T>)
    ensures a + (b + c) == a + b + c
  {
  }
}

=== FILE: slideshow.dfy ===
/**
 The data of one slideshow build (script.js:42-133): the request the page collects, the
 fixed timeline constants, the files staged for the encoder, and the typed pieces of the
 encoder's instruction list and filter graph.
 */
module Slideshow {

  /** Seconds each image is shown (`imageDuration`). */
  const ImageDuration: real := 3.0
  /** Seconds of each cross-fade (`fadeDuration`). */
  const FadeDuration: real := 0.5
  /** The portrait output frame every image is scaled and padded into. */
  const FrameWidth: nat := 1080
  const FrameHeight: nat := 1920
  /** The value of the template radio button that selects the photo-frame overlay. */
  const PolaroidTemplate: string := "polaroid"

  /** What the page collects when "create video" is pressed: the number of selected
      images, the caption boxes' contents in document order, whether a music file was
      chosen, and the value of the checked template radio button. */
  datatype Request = Request(imageCount: nat, captions: seq<string>, hasBgm: bool, template: string)
  {
    predicate Polaroid() {
      template == PolaroidTemplate
    }
  }

  /** `totalDuration`: the length the output is cut to. */
  function TotalDuration(imageCount: nat): real {
    imageCount as real * ImageDuration
  }

  /** Names in the encoder's staging area: `image{i}.png`, `bgm.mp3`, the caption font
      `/fonts/NotoSansJP-Bold.ttf`, `template1.png` and `output.mp4`. */
  datatype FileName = Image(index: nat) | Bgm | Font | TemplateImage | Output

  /** Stream labels of the filter graph: `v{i}`, `vt{i}` and `final_v`. */
  datatype Label = V(i: nat) | VT(i: nat) | FinalV

  /** One filter-graph stage.
      - ScalePad: `[input:v]scale=W:H:force_original_aspect_ratio=decrease,pad=W:H:-1:-1:color=black,setsar=1[out]`
      - XFade: `[first][second]xfade=transition=fade:duration=…:offset=…[out]`
      - DrawText: `[src]drawtext=…:text='…':…:enable='between(t,start,end)'[out]`
      - Overlay: `[src][input]overlay[out]`
      - PassThrough: `[src]null[out]` */
  datatype Stage =
    | ScalePad(input: nat, width: nat, height: nat, out: Label)
    | XFade(first: Label, second: Label, duration: real, offset: real, out: Label)
    | DrawText(src: Label, text: string, start: real, end: real, out: Label)
    | Overlay(src: Label, input: nat, out: Label)
    | PassThrough(src: Label, out: Label)

  /** One element of the argument list given to the encoder. Numbers and file names are
      kept typed rather than rendered to text. */
  datatype Token =
    | Flag(name: string)          // an option name such as `-i` or `-map`
    | Word(text: string)          // a fixed option value such as `aac`
    | File(file: FileName)        // a staged file name
    | Filters(stages: seq<Stage>) // the `-filter_complex` value, stages joined by `;`
    | MapLabel(target: Label)     // `[final_v]`
    | MapAudio(input: nat)        // `{input}:a?`
    | Seconds(t: real)            // a length in seconds, given to `-t`

  /** The outcome of pressing "create video": rejected for want of images (an alert, no
      staging, no encoder call), or the files staged and the arguments the encoder runs. */
  datatype Outcome = NoImages | Job(staged: seq<FileName>, args: seq<Token>)
}

=== FILE: text.dfy ===
/**
 Caption text handling of the slideshow builder: JavaScript's `String.prototype.trim`
 and the quote doubling that keeps a caption valid inside the single-quoted `text='…'`
 option of a `drawtext` filter (script.js:112-113).
 */
module Text {
  import Sequences

  const Quote: char := '\''

  /** The code points `trim` removes: ECMAScript WhiteSpace (TAB, VT, FF, ZWNBSP and every
      space separator of category Zs) and LineTerminator (LF, CR, LS, PS). */
  const WhitespaceChars: set<char> := {
    '\t', '\n', '\U{000B}', '\U{000C}', '\r', ' ', '\U{00A0}', '\U{1680}',
    '\U{2000}', '\U{2001}', '\U{2002}', '\U{2003}', '\U{2004}', '\U{2005}',
    '\U{2006}', '\U{2007}', '\U{2008}', '\U{2009}', '\U{200A}',
    '\U{2028}', '\U{2029}', '\U{202F}', '\U{205F}', '\U{3000}', '\U{FEFF}'
  }

  predicate IsWhitespace(c: char) {
    c in WhitespaceChars
  }

  predicate AllWhitespace(s: string) {
    forall k :: 0 <= k < |s| ==> IsWhitespace(s[k])
  }

  /** True when `s` neither starts nor ends with whitespace. */
  predicate Tight(s: string) {
    s == [] || (!IsWhitespace(s[0]) && !IsWhitespace(s[|s| - 1]))
  }

  /** Drops the leading whitespace. */
  function TrimStart(s: string): string {
    if |s| > 0 && IsWhitespace(s[0]) then TrimStart(s[1..]) else s
  }

  /** `TrimStart` returns the suffix of `s` that starts at its first non-whitespace
      character: everything before it is whitespace. */
  lemma {:induction false} TrimStartSpec(s: string)
    ensures var r := TrimStart(s);
      && |r| <= |s| && r == s[|s| - |r|..]
      && AllWhitespace(s[..|s| - |r|])
      && (r != [] ==> !IsWhitespace(r[0]))
  {
    if |s| > 0 && IsWhitespace(s[0]) {
      TrimStartSpec(s[1..]);
      var k := |s| - |TrimStart(s)|;
      forall i | 0 <= i < k
        ensures IsWhitespace(s[i])
      {
        if i > 0 { assert s[i] == s[1..][..k - 1][i - 1]; }
      }
    }
  }

  /** Drops the trailing whitespace. */
  function TrimEnd(s: string): string {
    if |s| > 0 && IsWhitespace(s[|s| - 1]) then TrimEnd(s[..|s| - 1]) else s
  }

  /** `TrimEnd` returns the prefix of `s` that ends at its last non-whitespace character:
      everything after it is whitespace. */
  lemma {:induction false} TrimEndSpec(s: string)
    ensures var r := TrimEnd(s);
      && |r| <= |s| && r == s[..|r|]
      && AllWhitespace(s[|r|..])
      && (r != [] ==> !IsWhitespace(r[|r| - 1]))
  {
    if |s| > 0 && IsWhitespace(s[|s| - 1]) {
      var front := s[..|s| - 1];
      TrimEndSpec(front);
      var k := |TrimEnd(s)|;
      assert TrimEnd(s) == TrimEnd(front);
      forall i | k <= i < |s|
        ensures IsWhitespace(s[i])
      {
        if i < |s| - 1 { assert s[i] == front[k..][i - k]; }
      }
    }
  }

  /** JavaScript `s.trim()`. */
  function Trim(s: string): string {
    TrimEnd(TrimStart(s))
  }

  /** The trimmed text neither starts nor ends with whitespace. */
  lemma TrimTight(s: string)
    ensures Tight(Trim(s)) && |Trim(s)| <= |s|
  {
    var t := TrimStart(s);
    TrimStartSpec(s);
    TrimEndSpec(t);
  }

  /** Replaces every single quote by two single quotes (script.js:113). */
  function Escape(s: string): (r: string)
    ensures |r| == |s| + multiset(s)[Quote]
  {
    if s == [] then []
    else
      assert s == [s[0]] + s[1..];
      (if s[0] == Quote then [Quote, Quote] else [s[0]]) + Escape(s[1..])
  }

  /** The text a caption box contributes to its `drawtext` stage. */
  function CaptionText(s: string): string {
    Escape(Trim(s))
  }

  /** Collapses every doubled quote back into one; any other character is kept. */
  function Unescape(t: string): string {
    if t == [] then []
    else if |t| >= 2 && t[0] == Quote && t[1] == Quote then [Quote] + Unescape(t[2..])
    else [t[0]] + Unescape(t[1..])
  }

  /** Every quote of `t` belongs to a doubled pair: `t` holds no quote that would close
      the surrounding single-quoted option value. */
  predicate WellEscaped(t: string) {
    if t == [] then true
    else if t[0] == Quote then |t| >= 2 && t[1] == Quote && WellEscaped(t[2..])
    else WellEscaped(t[1..])
  }

  lemma {:induction false} EscapeWellEscaped(s: string)
    ensures WellEscaped(Escape(s))
  {
    if s != [] {
      EscapeWellEscaped(s[1..]);
      var e := Escape(s);
      if s[0] == Quote {
        assert e[2..] == Escape(s[1..]);
      } else {
        assert e[1..] == Escape(s[1..]);
      }
    }
  }

  lemma {:induction false} UnescapeEscape(s: string)
    ensures Unescape(Escape(s)) == s
  {
    if s != [] {
      UnescapeEscape(s[1..]);
      var e := Escape(s);
      if s[0] == Quote {
        assert e[2..] == Escape(s[1..]);
      } else {
        assert e[1..] == Escape(s[1..]);
      }
      assert s == [s[0]] + s[1..];
    }
  }

  lemma {:induction false} EscapeUnescape(t: string)
    requires WellEscaped(t)
    ensures Escape(Unescape(t)) == t
  {
    if t != [] {
      if t[0] == Quote {
        EscapeUnescape(t[2..]);
        var u := Unescape(t);
        assert u[0] == Quote && u[1..] == Unescape(t[2..]);
        assert t == [Quote, Quote] + t[2..];
      } else {
        EscapeUnescape(t[1..]);
        var u := Unescape(t);
        assert u[0] == t[0] && u[1..] == Unescape(t[1..]);
        assert t == [t[0]] + t[1..];
      }
    }
  }

  lemma {:induction false} TrimStartOfPadded(a: string, m: string)
    requires AllWhitespace(a)
    requires m == [] || !IsWhitespace(m[0])
    ensures TrimStart(a + m) == m
  {
    if a != [] {
      assert (a + m)[1..] == a[1..] + m;
      TrimStartOfPadded(a[1..], m);
    }
  }

  lemma {:induction false} TrimEndOfPadded(m: string, b: string)
    requires AllWhitespace(b)
    requires m == [] || !IsWhitespace(m[|m| - 1])
    ensures TrimEnd(m + b) == m
  {
    if b != [] {
      assert (m + b)[..|m + b| - 1] == m + b[..|b| - 1];
      TrimEndOfPadded(m, b[..|b| - 1]);
    }
  }

  /** `trim` is characterised by its input's shape: whitespace, then a tight middle, then
      whitespace, and the middle is what it returns. */
  lemma {:induction false} TrimOfPadded(a: string, m: string, b: string)
    requires AllWhitespace(a) && AllWhitespace(b) && Tight(m)
    ensures Trim(a + m + b) == m
  {
    if m == [] {
      assert a + m + b == a + b;
      assert AllWhitespace(a + b);
      TrimStartOfPadded(a + b, []);
      assert a + b + [] == a + b;
    } else {
      assert a + m + b == a + (m + b);
      TrimStartOfPadded(a, m + b);
      TrimEndOfPadded(m, b);
    }
  }

  /** The input decomposes around the trimmed text: what `trim` drops on either side is
      whitespace only. */
  lemma {:induction false} TrimDecomposes(s: string) returns (a: string, b: string)
    ensures AllWhitespace(a) && AllWhitespace(b)
    ensures s == a + Trim(s) + b
  {
    var t := TrimStart(s);
    var m := TrimEnd(t);
    a := TrimStartSplit(s);
    b := TrimEndSplit(t);
    Sequences.AppendAssoc(a, m, b);
  }

  lemma TrimStartSplit(s: string) returns (a: string)
    ensures AllWhitespace(a) && s == a + TrimStart(s)
  {
    TrimStartSpec(s);
    var k := |s| - |TrimStart(s)|;
    a := s[..k];
    assert s == s[..k] + s[k..];
  }

  lemma TrimEndSplit(t: string) returns (b: string)
    ensures AllWhitespace(b) && t == TrimEnd(t) + b
  {
    TrimEndSpec(t);
    var k := |TrimEnd(t)|;
    b := t[k..];
    assert t == t[..k] + t[k..];
  }

  lemma {:induction false} TrimIdempotent(s: string)
    ensures Trim(Trim(s)) == Trim(s)
  {
    var m := Trim(s);
    TrimTight(s);
    TrimOfPadded([], m, []);
    assert [] + m + [] == m;
  }

  /** A caption box counts as empty exactly when it holds nothing but whitespace. */
  lemma {:induction false} TrimEmptyIff(s: string)
    ensures Trim(s) == [] <==> AllWhitespace(s)
  {
    if AllWhitespace(s) {
      TrimOfPadded(s, [], []);
      assert s + [] + [] == s;
    } else {
      var a, b := TrimDecomposes(s);
    }
  }
}
